=== FILE: README.md ===
# Shared-files store: a Dafny model

This project models the storage core of the smartsync shared-files service and
proves properties of it. The service keeps files under one root directory on
local disk. It offers three operations: get, put and prefix listing. It deletes
temporary files one TTL after they are written, and once more after every
restart.

The model has these parts:

- `Base`: the option and result wrappers.
- `Paths`: the path strings the store builds.
  - A name on disk is always `root + path` by plain concatenation.
  - `filepath.Dir` is modelled without lexical cleaning.
  - `strings.TrimPrefix` is modelled.
- `Disk`: the host as seen through Go's `os` and `filepath` packages. `Host` is made of:
  - regular files, each with content and modification time;
  - directories;
  - a logical clock;
  - the deletion tasks that sleep inside the process (`pending`);
  - `faults`, the failures the environment reports at particular names, such as permissions, broken media or dangling links.

  `ReadFile`, `MkdirAll`, `WriteFile`, `Remove`, `Glob` and the walk are pure functions of a `Host`. `WellFormed` says the host is a tree the OS could hold, and `ReadableTreeWalksFully` says a walk of such a tree with no unreadable directory sees every file.
- `FileSystem`: the store adapter.
  - `NewAdapter` and the startup cleanup.
  - `GetFile`, `PutFile` and `GetFilesList`.
  - `Fire`, the step in which one sleeping deletion task wakes up and removes its path.
- `FileSystemProperties`: properties that span several calls:
  - a put is read back;
  - other files are left alone;
  - temporary files expire, and repeated expiry is harmless;
  - the operations keep the tree well-formed;
  - listing is exact on a readable tree.
- `SharedFiles`: the service layer. It forwards to the store and decides whether a file is temporary from the caller's relative path.
- `Rest`: the decision logic of the HTTP handlers:
  - stripping the `/api/` prefix;
  - the status and body chosen for each service outcome;
  - the `ListBucketResult` envelope;
  - end-to-end upload/download and expiry lemmas.

Some behaviour is not visible in the code and enters the model as parameters:

- `models.IsTempFile` is not part of this model. It is the parameter `isTempFile`. The service applies it to the relative path, the startup scan to the root-joined path, and nothing assumes the two agree.
- Whether `filepath.Glob` rejects a pattern is the parameter `badPattern`.
- The result of reading a request body is the `Option` argument `body`.
- The order in which Go walks a directory is left open. The listing and the scan are methods that pick the next entry with `:|`.

## Model

| member | source | states |
|---|---|---|
| `FileSystem.NewAdapter` | internal/pkg/filesdb/filesystem/fileSystemDB.go:47-62 | A missing root or TTL key gives that configuration error and leaves the host untouched. A failing MkdirAll of the root gives its error, schedules nothing and changes nothing but the directories it made. Success holds exactly the configured root and TTL, creates the root's missing directories, then only extends the task list, and each new task names a distinct temporary file below the root, due at construction time + TTL. If no directory below the root is unreadable, every temporary file below the root gets a task. A well-formed tree stays well-formed. |
| `FileSystem.Cleanup` | internal/pkg/filesdb/filesystem/fileSystemDB.go:64-94 | The host changes only by appended tasks. Each task names a distinct temporary file below the root, all due one TTL from now. When the walk cannot stop early, every such file is covered. |
| `FileSystem.ScanTempFiles` | internal/pkg/filesdb/filesystem/fileSystemDB.go:65-84 | Every path collected is a distinct regular file below the root that `isTempFile` accepts. The walk completes exactly when no reachable directory is unreadable, and a complete walk collects every temporary file. |
| `FileSystem.GetFile` | internal/pkg/filesdb/filesystem/fileSystemDB.go:129-143 | Success happens exactly when `root + path` is a readable regular file, and the data is its whole content. The error has the NotFound class exactly when the OS reports the name absent. A name that resolves to a directory, including one ending in `/`, fails with EISDIR and so is not NotFound. Any error comes with empty content, and every other failure passes through unclassified. |
| `FileSystem.PutFile` | internal/pkg/filesdb/filesystem/fileSystemDB.go:146-167 | A MkdirAll failure other than "already exists" is returned, and nothing else happens. Otherwise the outcome is the write's. On success the file at `root + path` holds exactly the new content, stamped with the current clock. A temporary file gets exactly one new task at now + TTL, and a non-temporary one none. A failure leaves every file and the task list unchanged. |
| `FileSystem.Fire` | internal/pkg/filesdb/filesystem/fileSystemDB.go:157-164 | A due task leaves the task list, and no error escapes. Only its path can disappear, and no other entry changes. An absent path leaves files and directories untouched. A readable file at that path is removed. |
| `FileSystem.WalksDisjoint` | internal/pkg/filesdb/filesystem/fileSystemDB.go:99-124 | In a well-formed tree the walks of two different glob matches share no file, so the listing never reports a file twice. |
| `FileSystem.AppendFile` | internal/pkg/filesdb/filesystem/fileSystemDB.go:113-120 | Adding one visited file appends exactly one entry after the earlier ones: the path with the root cut off and that file's mtime. The listing still reports and covers the visited files, now including this one, and stays distinct. |
| `FileSystem.AppendWalk` | internal/pkg/filesdb/filesystem/fileSystemDB.go:107-123 | The walk callback keeps the entries already listed in place and appends exactly one entry per visited file. Each entry is named by the root-relative path, and the root plus the path gives back the file, with that file's mtime. Entries stay distinct when the walk is new. |
| `FileSystem.GetFilesList` | internal/pkg/filesdb/filesystem/fileSystemDB.go:97-126 | A rejected pattern gives an empty list and the error. Otherwise the error is nil even when a walk fails. Every entry is a regular file reached from a match, with its mtime. Every file the walks reach is listed, no file twice in a well-formed tree, and no match gives an empty list. |
| `FileSystemProperties.PutThenGet` | internal/pkg/filesdb/filesystem/fileSystemDB.go:149-155 | After a successful put, GetFile of the same path returns exactly the content put, with no error. |
| `FileSystemProperties.PutKeepsOtherFiles` | internal/pkg/filesdb/filesystem/fileSystemDB.go:149-155 | In a well-formed tree a put, successful or not, leaves GetFile of every other readable path unchanged. |
| `FileSystemProperties.TempFileExpires` | internal/pkg/filesdb/filesystem/fileSystemDB.go:156-165 | A temporary put adds one task for `root + path` at now + TTL. After at least one TTL that task is due, and once it has run GetFile reports NotFound. |
| `FileSystemProperties.RewriteExpiresWithFirstTask` | internal/pkg/filesdb/filesystem/fileSystemDB.go:156-165 | Two temporary puts of one path leave two tasks. The first task removes the second content when it fires, even though that content is younger than one TTL. |
| `FileSystemProperties.RepeatedExpiryIsHarmless` | internal/pkg/filesdb/filesystem/fileSystemDB.go:157-164 | In a well-formed tree, when two tasks target the same path, the second changes no file and no directory after the first has run. |
| `FileSystemProperties.PutFileKeepsWellFormed` | internal/pkg/filesdb/filesystem/fileSystemDB.go:149-155 | A put of a plain absolute name keeps the tree well-formed, whatever the MkdirAll outcome. |
| `FileSystemProperties.FireKeepsWellFormed` | internal/pkg/filesdb/filesystem/fileSystemDB.go:160 | A deletion task keeps the tree well-formed. It never removes a directory that still has entries. |
| `Disk.ReadableTreeWalksFully` | internal/pkg/filesdb/filesystem/fileSystemDB.go:66-81 | In a well-formed tree with no unreadable directory, the startup walk cannot stop early. A walk reaches exactly the regular files below its start. |
| `FileSystemProperties.ListingIsPrefixMatch` | internal/pkg/filesdb/filesystem/fileSystemDB.go:99-124 | In a readable well-formed tree the files listed for a prefix are exactly the stored files whose name starts with `root + prefix`. |
| `SharedFiles.GetFile` | internal/app/sharedfiles/operations.go:16-18 | The service returns the store's content and error unchanged, so NotFound survives. Success happens exactly for a readable file, with its content. |
| `SharedFiles.PutFile` | internal/app/sharedfiles/operations.go:21-25 | The service calls the store with the same path and content, and makes the file temporary exactly when `isTempFile` accepts the relative path. One task is added exactly for a successful temporary put. |
| `SharedFiles.GetFilesList` | internal/app/sharedfiles/operations.go:11-13 | The service returns the store's list and error with the store's guarantees. |
| `Rest.RequestPath` | internal/app/drivers/http/rest/sharedFilesHandler.go:23 | One leading `/api/` is removed when the URL path has one, and the path is left unchanged otherwise. |
| `Rest.RequestPathOfApiUrl` | internal/app/drivers/http/rest/sharedFilesHandler.go:51 | The path a client writes after `/api/` is exactly the path the service sees. |
| `Rest.HandlePutFile` | internal/app/drivers/http/rest/sharedFilesHandler.go:21-46 | A failed body read gives 500 with the internal-error body, and the service is never called. Otherwise a service error gives 500, and success gives 200 with an empty body and the new content stored. |
| `Rest.HandleGetFile` | internal/app/drivers/http/rest/sharedFilesHandler.go:49-71 | The response is 200 exactly for a readable file, with its bytes. It is 404 with an empty body exactly when the store reports NotFound, and 500 with the internal-error body otherwise. |
| `Rest.DirectoryUrlIsServerError` | internal/app/drivers/http/rest/sharedFilesHandler.go:54-65 | A GET whose store name resolves to a directory (a directory path with a trailing `/`, such as `/api/sub/` when `root + "sub"` is a directory) answers 500 with the internal-error body, not 404. |
| `Rest.Envelope` | internal/app/drivers/http/rest/sharedFilesHandler.go:100-109 | KeyCount is the number of files, and entry i carries file i's path and mtime, in the same order. |
| `Rest.HandleGetFilesList` | internal/app/drivers/http/rest/sharedFilesHandler.go:85-120 | A service error gives 500, and otherwise the response is 200 with the envelope. The envelope's keys are exactly the files listed for the prefix, each with its mtime, and no key is repeated in a well-formed tree. |
| `Rest.UploadThenDownload` | internal/app/drivers/http/rest/sharedFilesHandler.go:21-71 | After a 200 answer to a PUT under `/api/` + path, a GET of the same URL answers 200 with exactly the uploaded bytes. |
| `Rest.TempUploadExpires` | internal/app/sharedfiles/operations.go:21-24 | An upload whose relative path is temporary answers 404 with an empty body once its task has run, one TTL or more later. |

## Left out

- Path cleaning. `filepath.Dir` here does not resolve inner `.` or `..` elements or repeated separators, so distinct stored names are distinct entries. Reads and writes do resolve a name ending in separators, or the bare name `.`, to the directory it names (`Disk.NamesDirectory`). A final `/.` element in a read or written name is not resolved: a PUT of `sub/.` stores a regular file named `root + "sub/."`, where open(2) would fail with EISDIR and the handler would answer 500. The OS resolution of a final `/.` element in the directory PutFile makes is modelled, in `Disk.MkdirTarget`. A relative root such as `.`, whose walk yields names without the root in front, is not modelled.
- Glob metacharacters. The pattern's literal part is matched as plain text, and whether Go rejects a pattern is the uninterpreted parameter `badPattern`.
- The body of `models.IsTempFile`, which is not part of this model. It is the uninterpreted parameter `isTempFile`.
- Permission bits, symlinks, ownership, torn writes and real modification times. Failures are the `faults` map, keyed by the name whose access fails, and a file's mtime is the logical clock at its last write. An unreadable directory stops walks (directory listing) of what is below it, but not reads, writes or removals of names below it, and it does not refuse the creation of entries in it. Such refusals are modelled only as a fault at the name itself.
- Concurrency. The goroutines that sleep for the TTL are pending `Deletion` values. The startup cleanup's single goroutine, which removes its files in walk order, becomes one task per file with the same deadline, so the model allows any order of those removals and other steps between them; no stated property depends on that order. `Fire` runs one of them at a time, and puts or listings racing with a deletion are not modelled. Deletion errors are dropped. The distinction between the cleanup task, which logs everything but "not exist", and the put task, which logs every error, concerns logging only.
- `FileSystem.GetFilesList`: the entries come in the order the method picks them. Go's lexical order is not stated. A `d.Info()` failure that stops one walk is not modelled, because in the model every visited entry exists.
- `FileSystem.ScanTempFiles`: when the walk stops at an unreadable directory, the files collected before it are some subset of the temporary files, not the lexically earlier ones. `FileSystem.NewAdapter` inherits this.
- The nil-`DirEntry` dereference in the listing callback (fileSystemDB.go:110) when a walk cannot stat its match. Walks are modelled only for entries that exist.
- On a configuration or MkdirAll error, NewAdapter in Go also returns an empty adapter value. The model returns only the error.
- The listing handler's query parsing (`r.URL.Query().Get("prefix")`) is not modelled: the handler receives the prefix value.
- `io.ReadAll` is modelled only by its outcome. `xml.Marshal` and its failure branch (sharedFilesHandler.go:110-118) are not modelled, nor is the RFC 3339 rendering of times: a listing body is the envelope value itself.
- Error bodies come from `utils.CreateErrorBody`, which loads them from an external file. They are named by their key (`internal-error`). The "last" flag of `responses.HTTPReturn` and all logging are not modelled.
- `routers.go`, `main.go` and `wire.go` (routing, middleware, dependency injection) are not modelled. Neither is `sharedfilesservice.go`, beyond the service's forwarding shape.
- A name below a regular file makes the OS report "not a directory", which `os.IsNotExist` rejects. GetFile therefore answers such a path with an unclassified error (HTTP 500), not NotFound. The model keeps this behaviour of the code.

=== FILE: base.dfy ===
/** Small failure-carrying wrappers shared by the other modules. */
module Base {

  datatype Option<+T> = None | Some(value: T)

  datatype Result<+T, +E> = Ok(value: T) | Err(error: E)

  /** The elements of `s` are pairwise different. */
  predicate Distinct<T(==)>(s: seq<T>) {
    forall i, j | 0 <= i < j < |s| :: s[i] != s[j]
  }

  /** A sequence without repeats that enumerates a set has one element per
      member of the set. */
  lemma {:induction false} DistinctSize<T>(s: seq<T>, t: set<T>)
    requires Distinct(s)
    requires forall i | 0 <= i < |s| :: s[i] in t
    requires forall x | x in t :: x in s
    ensures |s| == |t|
  {
    if s != [] {
      var k := |s| - 1;
      var rest := s[..k];
      forall x | x in t - {s[k]} ensures x in rest {
        var i :| 0 <= i < |s| && s[i] == x;
        assert rest[i] == x;
      }
      DistinctSize(rest, t - {s[k]});
    }
  }
}

=== FILE: disk.dfy ===
/** The host as the store sees it through Go's os and filepath packages:
    regular files with their content and modification time, directories, a
    logical clock, the deletion tasks sleeping inside the process, and the
    failures the environment reports at particular names (permissions,
    broken media, dangling links). Every OS call the store makes is a pure
    function here. */
module Disk {
  import opened Base
  import opened Paths

  newtype byte = b: int | 0 <= b < 256

  /** The errors the OS calls report. Go's os.IsNotExist and os.IsExist hold
      of NotExist and Exist respectively. */
  datatype OsError =
    | NotExist
    | Exist
    | NotADirectory
    | IsADirectory
    | DirectoryNotEmpty
    | PermissionDenied
    | IoFailure

  /** A regular file; `mtime` is the clock value of its last write. */
  datatype Blob = Blob(content: seq<byte>, mtime: nat)

  /** A sleeping deletion task: remove `path` once the clock reaches
      `deadline`. A negative TTL gives a deadline already in the past. */
  datatype Deletion = Deletion(path: string, deadline: int)

  datatype Host = Host(
    files: map<string, Blob>,
    dirs: set<string>,
    faults: map<string, OsError>,
    clock: nat,
    pending: seq<Deletion>)

  /** Directory names without trailing separator whose ancestors are
      directories too. */
  ghost predicate DirsClosed(dirs: set<string>) {
    && (forall x | x in dirs :: x != [] && x[|x| - 1] != '/')
    && (forall x, j | x in dirs && ComponentEnd(x, j) && j < |x| :: x[..j] in dirs)
  }

  /** A tree the OS could actually hold: names are plain, no name is both a
      file and a directory, and every ancestor of an entry is a directory. */
  ghost predicate WellFormed(h: Host) {
    && (forall f | f in h.files :: f !in h.dirs && Plain(f))
    && (forall f, j | f in h.files && 0 < j < |f| && f[j] == '/' :: f[..j] in h.dirs)
    && DirsClosed(h.dirs)
  }

  /** Some proper ancestor of `p` is a regular file, so resolving `p` fails
      with ENOTDIR. */
  predicate HasFileAncestor(h: Host, p: string) {
    exists j | 0 < j < |p| && p[j] == '/' :: p[..j] in h.files
  }

  predicate IsDirectory(h: Host, x: string) {
    x in h.dirs || x == "." || x == "/"
  }

  /** `p` resolves to a directory: a stored directory, ".", or a name
      ending in separators whose remainder is a directory (nothing but
      separators is "/"). */
  predicate NamesDirectory(h: Host, p: string) {
    || p in h.dirs
    || p == "."
    || (&& p != [] && p[|p| - 1] == '/'
        && var t := TrimTrailingSlashes(p);
           t == [] || IsDirectory(h, t))
  }

  /** os.ReadFile: opening a directory succeeds and the read fails with
      EISDIR. */
  function ReadFile(h: Host, p: string): Result<seq<byte>, OsError> {
    if HasFileAncestor(h, p) then Err(NotADirectory)
    else if p in h.faults then Err(h.faults[p])
    else if NamesDirectory(h, p) then Err(IsADirectory)
    else if p in h.files then Ok(h.files[p].content)
    else Err(NotExist)
  }

  /** The elements of DirChain(p) that end at position `j` or later. */
  function ChainFrom(p: string, j: nat): set<string> {
    set k | j <= k <= |p| && ComponentEnd(p, k) :: p[..k]
  }

  lemma ChainFromStep(p: string, j: nat)
    requires 1 <= j <= |p|
    ensures ChainFrom(p, j) ==
            (if ComponentEnd(p, j) then {p[..j]} else {}) + ChainFrom(p, j + 1)
    ensures forall y | y in ChainFrom(p, j + 1) :: |y| > j
  {
  }

  /** Every element of the chain from `j` on is a directory already or can
      be created. */
  predicate CreatableFrom(h: Host, p: string, j: nat) {
    forall x | x in ChainFrom(p, j) :: x in h.dirs || (x !in h.faults && x !in h.files)
  }

  /** The loop of os.MkdirAll, shortest missing element first. */
  function MkdirFrom(h: Host, p: string, j: nat): (r: (Host, Option<OsError>))
    requires 1 <= j
    decreases |p| + 1 - j
    ensures r.0 == h.(dirs := r.0.dirs)
    ensures h.dirs <= r.0.dirs <= h.dirs + ChainFrom(p, j)
    ensures forall x | x in r.0.dirs && x !in h.dirs :: x !in h.files && x !in h.faults
    ensures r.1.None? <==> CreatableFrom(h, p, j)
    ensures r.1.None? ==> ChainFrom(p, j) <= r.0.dirs
  {
    if j > |p| then (h, None)
    else
      ChainFromStep(p, j);
      if !ComponentEnd(p, j) then MkdirFrom(h, p, j + 1)
      else
        var x := p[..j];
        if x in h.dirs then MkdirFrom(h, p, j + 1)
        else if x in h.faults then (h, Some(h.faults[x]))
        else if x in h.files then (h, Some(NotADirectory))
        else MkdirFrom(h.(dirs := h.dirs + {x}), p, j + 1)
  }

  /** The directory a mkdir of `p` has to make: a final "." element names
      the directory it sits in, as the OS resolves it, and "." alone names
      the working directory, which always exists. */
  function MkdirTarget(p: string): (r: string)
    ensures |r| <= |p| && p[..|r|] == r
  {
    if p == "." then ""
    else if |p| >= 2 && p[|p| - 2..] == "/." then p[..|p| - 1]
    else p
  }

  /** os.MkdirAll: make `p` and every missing ancestor a directory, stopping
      at the first element that is a regular file or that the environment
      refuses. Directories made before the failure stay. An existing
      directory, "." included, is success. */
  function MkdirAll(h: Host, p: string): (r: (Host, Option<OsError>))
    ensures r.0 == h.(dirs := r.0.dirs)
    ensures h.dirs <= r.0.dirs <= h.dirs + DirChain(MkdirTarget(p))
    ensures forall x | x in r.0.dirs && x !in h.dirs :: x !in h.files && x !in h.faults
    ensures r.1.None? <==> p != [] && CreatableFrom(h, MkdirTarget(p), 1)
    ensures r.1.None? ==> DirChain(MkdirTarget(p)) <= r.0.dirs
  {
    var t := MkdirTarget(p);
    assert DirChain(t) == ChainFrom(t, 1);
    if p == [] then (h, Some(NotExist)) else MkdirFrom(h, t, 1)
  }

  /** A new directory whose ancestors are all directories keeps the set
      closed. */
  lemma AddDirKeepsClosed(dirs: set<string>, x: string)
    requires DirsClosed(dirs)
    requires x != [] && x[|x| - 1] != '/'
    requires forall k | ComponentEnd(x, k) && k < |x| :: x[..k] in dirs
    ensures DirsClosed(dirs + {x})
  {
  }

  /** MkdirFrom creates the elements of `p` in order, so every directory it
      leaves behind has its ancestors. */
  lemma {:induction false} MkdirFromKeepsDirsClosed(h: Host, p: string, j: nat)
    requires 1 <= j
    requires DirsClosed(h.dirs)
    requires forall k | 1 <= k < j && k <= |p| && ComponentEnd(p, k) :: p[..k] in h.dirs
    ensures DirsClosed(MkdirFrom(h, p, j).0.dirs)
    decreases |p| + 1 - j
  {
    if j <= |p| {
      if !ComponentEnd(p, j) || p[..j] in h.dirs {
        MkdirFromKeepsDirsClosed(h, p, j + 1);
      } else if p[..j] !in h.faults && p[..j] !in h.files {
        var x := p[..j];
        forall k | ComponentEnd(x, k) && k < |x| ensures x[..k] in h.dirs {
          assert ComponentEnd(p, k) && x[..k] == p[..k];
        }
        AddDirKeepsClosed(h.dirs, x);
        MkdirFromKeepsDirsClosed(h.(dirs := h.dirs + {x}), p, j + 1);
      }
    }
  }

  /** os.MkdirAll keeps a well-formed tree well-formed. */
  lemma MkdirAllKeepsWellFormed(h: Host, p: string)
    requires WellFormed(h)
    ensures WellFormed(MkdirAll(h, p).0)
  {
    if p != [] {
      MkdirFromKeepsDirsClosed(h, MkdirTarget(p), 1);
    }
  }

  /** os.WriteFile: create or truncate `p` and store `c`, stamped with the
      current clock. The parent must already be a directory. */
  function WriteFile(h: Host, p: string, c: seq<byte>): (r: (Host, Option<OsError>))
    ensures r.1.Some? ==> r.0 == h
    ensures r.1.None? ==> r.0 == h.(files := h.files[p := Blob(c, h.clock)])
    ensures r.1.None? <==>
              && !HasFileAncestor(h, p) && p !in h.faults && p !in h.dirs
              && p != [] && p[|p| - 1] != '/' && p != "." && IsDirectory(h, Dir(p))
  {
    if HasFileAncestor(h, p) then (h, Some(NotADirectory))
    else if p in h.faults then (h, Some(h.faults[p]))
    else if p == [] || !IsDirectory(h, Dir(p)) then (h, Some(NotExist))
    else if p in h.dirs || p[|p| - 1] == '/' || p == "." then (h, Some(IsADirectory))
    else (h.(files := h.files[p := Blob(c, h.clock)]), None)
  }

  predicate HasEntries(h: Host, x: string) {
    || (exists f | f in h.files :: Inside(x, f))
    || (exists y | y in h.dirs :: Inside(x, y))
  }

  /** os.Remove: unlink a regular file or an empty directory. */
  function Remove(h: Host, p: string): (Host, Option<OsError>) {
    if HasFileAncestor(h, p) then (h, Some(NotADirectory))
    else if p in h.faults then (h, Some(h.faults[p]))
    else if p in h.files then (h.(files := h.files - {p}), None)
    else if p in h.dirs then
      if HasEntries(h, p) then (h, Some(DirectoryNotEmpty))
      else (h.(dirs := h.dirs - {p}), None)
    else (h, Some(NotExist))
  }

  /** No directory a walk from `start` has to read on its way down to `f` is
      unreadable. */
  predicate Reachable(h: Host, start: string, f: string) {
    forall j | |TrimTrailingSlashes(start)| <= j < |f| && 0 < j && f[j] == '/' :: f[..j] !in h.faults
  }

  /** The regular files filepath.WalkDir(d) visits when d is a directory:
      the contents of an unreadable directory are never listed. */
  function FilesBelow(h: Host, d: string): set<string> {
    set f | f in h.files && Inside(d, f) && Reachable(h, d, f)
  }

  /** The unreadable directories a walk of `d` reaches (d itself included). */
  function UnreadableBelow(h: Host, d: string): set<string> {
    set x | x in h.dirs && x in h.faults
            && (x == TrimTrailingSlashes(d) || Inside(d, x)) && Reachable(h, d, x)
  }

  /** The regular files filepath.WalkDir(start) visits. */
  function Walk(h: Host, start: string): set<string> {
    if start in h.dirs then FilesBelow(h, start)
    else if start in h.files then {start}
    else {}
  }

  /** filepath.Glob(literal + "*") for a `literal` without metacharacters:
      the entries of the pattern's directory whose name continues `literal`
      without a further separator. A pattern directory that is missing or
      unreadable gives no matches and no error. */
  function Glob(h: Host, literal: string): set<string> {
    if Dir(literal + "*") in h.faults || !IsDirectory(h, Dir(literal + "*")) then {}
    else set e | e in h.files.Keys + h.dirs && StartsWith(e, literal) && NoSlash(e[|literal|..])
  }

  /** No directory is unreadable. */
  predicate Readable(h: Host) {
    forall x | x in h.faults :: x !in h.dirs
  }

  /** In a readable well-formed tree a walk cannot stop early and reaches
      every regular file below its start. */
  lemma ReadableTreeWalksFully(h: Host, d: string)
    requires WellFormed(h) && Readable(h)
    ensures UnreadableBelow(h, d) == {}
    ensures FilesBelow(h, d) == set f | f in h.files && Inside(d, f)
  {
    forall f | f in h.files && Inside(d, f) ensures Reachable(h, d, f) {
      forall j | |TrimTrailingSlashes(d)| <= j < |f| && 0 < j && f[j] == '/' ensures f[..j] !in h.faults {
        assert f[..j] in h.dirs;
      }
    }
  }

  /** Neither the shape of the tree nor what a walk sees depends on the
      sleeping tasks. */
  lemma WalkIgnoresTasks(h: Host, h': Host, d: string)
    requires h' == h.(pending := h'.pending)
    ensures WellFormed(h') == WellFormed(h)
    ensures FilesBelow(h', d) == FilesBelow(h, d)
    ensures UnreadableBelow(h', d) == UnreadableBelow(h, d)
  {
  }

  /** The clock moves forward by `dt`. */
  function Advance(h: Host, dt: nat): (r: Host)
    ensures r.clock >= h.clock
    ensures r == h.(clock := r.clock)
  {
    h.(clock := h.clock + dt)
  }
}

=== FILE: filesystem.dfy ===
/** The local-disk file store (package filesystem): an adapter holding a
    root directory and a TTL, with get, put and prefix listing, plus the
    deletion tasks that expire temporary files. The goroutines that sleep
    for the TTL and then remove a file are entries of `Host.pending`; the
    `Fire` transition runs one of them. */
module FileSystem {
  import opened Base
  import opened Paths
  import opened Disk

  const RootKey: string := "filesystem_db.root"
  const TtlKey: string := "filesystem_db.ttl"

  /** The configuration service: a lookup fails when the key is absent. */
  datatype Configuration = Configuration(strings: map<string, string>, durations: map<string, int>)

  /** The store: every name it touches is `root + path`. */
  datatype Adapter = Adapter(root: string, ttl: int)

  /** Errors as the store returns them. Only GetFile classifies: a missing
      file is wrapped with the NotFound class, everything else passes
      through unclassified. */
  datatype Error =
    | NotFound(cause: OsError)
    | Os(cause: OsError)
    | BadPattern
    | MissingConfig(key: string)

  /** Go's ([]byte, error) pair. */
  datatype Fetched = Fetched(data: seq<byte>, err: Option<Error>)

  /** models.FileMetadata */
  datatype FileMetadata = FileMetadata(path: string, lastModified: nat)

  /** `p` can be read: a regular file that resolves and the environment lets
      through. */
  predicate Present(h: Host, p: string) {
    p in h.files && p !in h.faults && !NamesDirectory(h, p) && !HasFileAncestor(h, p)
  }

  /** Reading `p` fails with ENOENT (or the environment says so). A name
      below a regular file fails with ENOTDIR instead, which Go's
      os.IsNotExist does not accept. */
  predicate Missing(h: Host, p: string) {
    && !HasFileAncestor(h, p)
    && (if p in h.faults then h.faults[p] == NotExist else !NamesDirectory(h, p) && p !in h.files)
  }

  // ---------------------------------------------------------------- GetFile

  /** Adapter.GetFile: the whole file, or an error with empty content. */
  function GetFile(a: Adapter, h: Host, path: string): (r: Fetched)
    ensures r.err.Some? ==> r.data == []
    ensures r.err.None? <==> Present(h, a.root + path)
    ensures r.err.None? ==> r.data == h.files[a.root + path].content
    ensures (r.err.Some? && r.err.value.NotFound?) <==> Missing(h, a.root + path)
    ensures r.err.Some? ==> r.err.value.NotFound? || r.err.value.Os?
  {
    match ReadFile(h, a.root + path)
    case Ok(data) => Fetched(data, None)
    case Err(e) =>
      if e == NotExist then Fetched([], Some(NotFound(e))) else Fetched([], Some(Os(e)))
  }

  // ---------------------------------------------------------------- PutFile

  /** Adapter.PutFile: make the parent directory (an "already exists"
      failure is ignored), overwrite the file, and when `isTemp` holds start
      one deletion task due one TTL from now. */
  function PutFile(a: Adapter, h: Host, path: string, content: seq<byte>, isTemp: bool)
    : (r: (Host, Option<Error>))
    ensures r.0.clock == h.clock && r.0.faults == h.faults
    ensures h.dirs <= r.0.dirs <= h.dirs + DirChain(MkdirTarget(a.root + Dir(path)))
    ensures r.1.None? ==> r.0.files == h.files[a.root + path := Blob(content, h.clock)]
    ensures r.1.Some? ==> r.0.files == h.files && r.1.value.Os?
    ensures r.1.None? && isTemp ==>
              r.0.pending == h.pending + [Deletion(a.root + path, h.clock + a.ttl)]
    ensures r.1.Some? || !isTemp ==> r.0.pending == h.pending
    ensures var mk := MkdirAll(h, a.root + Dir(path));
            mk.1.Some? && mk.1.value != Exist ==> r == (mk.0, Some(Os(mk.1.value)))
    ensures var mk := MkdirAll(h, a.root + Dir(path));
            mk.1.None? || mk.1 == Some(Exist) ==>
              (r.1.None? <==> WriteFile(mk.0, a.root + path, content).1.None?)
    ensures var mk := MkdirAll(h, a.root + Dir(path));
            var w := WriteFile(mk.0, a.root + path, content);
            (mk.1.None? || mk.1 == Some(Exist)) && w.1.Some? ==> r == (mk.0, Some(Os(w.1.value)))
  {
    var mk := MkdirAll(h, a.root + Dir(path));
    if mk.1.Some? && mk.1.value != Exist then (mk.0, Some(Os(mk.1.value)))
    else
      var w := WriteFile(mk.0, a.root + path, content);
      if w.1.Some? then (w.0, Some(Os(w.1.value)))
      else if isTemp then
        (w.0.(pending := w.0.pending + [Deletion(a.root + path, w.0.clock + a.ttl)]), None)
      else (w.0, None)
  }

  // ------------------------------------------------------ deletion tasks

  /** A deletion task whose TTL has run out wakes up: it removes its path
      and swallows every failure (an absent file included), so no error
      reaches anyone. Only that one name can disappear. */
  function Fire(h: Host, i: nat): (r: Host)
    requires i < |h.pending| && h.pending[i].deadline <= h.clock
    ensures r.pending == h.pending[..i] + h.pending[i + 1..]
    ensures r.clock == h.clock && r.faults == h.faults
    ensures r.files.Keys <= h.files.Keys && r.dirs <= h.dirs
    ensures forall q | q in r.files :: r.files[q] == h.files[q]
    ensures forall q | q != h.pending[i].path :: (q in r.files <==> q in h.files) && (q in r.dirs <==> q in h.dirs)
    ensures h.pending[i].path !in h.files && h.pending[i].path !in h.dirs ==>
              r.files == h.files && r.dirs == h.dirs
    ensures Present(h, h.pending[i].path) ==> h.pending[i].path !in r.files
  {
    var (h1, _) := Remove(h, h.pending[i].path);
    h1.(pending := h.pending[..i] + h.pending[i + 1..])
  }

  /** One task per path, all due at `deadline`. */
  function Schedule(paths: seq<string>, deadline: int): (r: seq<Deletion>)
    ensures |r| == |paths|
    ensures forall i | 0 <= i < |r| :: r[i].path == paths[i] && r[i].deadline == deadline
  {
    seq(|paths|, i requires 0 <= i < |paths| => Deletion(paths[i], deadline))
  }

  // ------------------------------------------------ construction and scan

  /** The walk of `cleanup`: the regular files below `root` whose full name
      `isTempFile` accepts. The walk stops at the first unreadable
      directory, keeping what it collected; `complete` is false exactly
      then. The visiting order is left open. */
  method ScanTempFiles(h: Host, root: string, isTempFile: string -> bool)
    returns (found: seq<string>, complete: bool)
    ensures Distinct(found)
    ensures forall i | 0 <= i < |found| :: found[i] in FilesBelow(h, root) && isTempFile(found[i])
    ensures complete <==> UnreadableBelow(h, root) == {}
    ensures complete ==> forall f | f in FilesBelow(h, root) && isTempFile(f) :: f in found
  {
    var todo := FilesBelow(h, root) + UnreadableBelow(h, root);
    found := [];
    while todo != {}
      invariant todo <= FilesBelow(h, root) + UnreadableBelow(h, root)
      invariant UnreadableBelow(h, root) <= todo
      invariant Distinct(found)
      invariant forall i | 0 <= i < |found| ::
                  found[i] in FilesBelow(h, root) && isTempFile(found[i]) && found[i] !in todo
      invariant forall f | f in FilesBelow(h, root) && isTempFile(f) && f !in todo :: f in found
      decreases todo
    {
      var x :| x in todo;
      if x in UnreadableBelow(h, root) {
        return found, false;
      }
      if isTempFile(x) {
        found := found + [x];
      }
      todo := todo - {x};
    }
    complete := true;
  }

  /** cleanup: scan `root` once and start one deletion task per temporary
      file found, all due one TTL from now. Go starts a single goroutine
      that removes the files in walk order; here each file is a task of its
      own, which `Fire` may run in any order, interleaved with other steps. */
  method Cleanup(h: Host, root: string, ttl: int, isTempFile: string -> bool)
    returns (h': Host)
    ensures h' == h.(pending := h'.pending)
    ensures |h.pending| <= |h'.pending| && h'.pending[..|h.pending|] == h.pending
    ensures forall i | |h.pending| <= i < |h'.pending| ::
              && h'.pending[i].deadline == h.clock + ttl
              && h'.pending[i].path in FilesBelow(h, root)
              && isTempFile(h'.pending[i].path)
    ensures forall i, j | |h.pending| <= i < j < |h'.pending| ::
              h'.pending[i].path != h'.pending[j].path
    ensures UnreadableBelow(h, root) == {} ==>
              forall f | f in FilesBelow(h, root) && isTempFile(f) ::
                exists i | |h.pending| <= i < |h'.pending| :: h'.pending[i].path == f
  {
    var found, _ := ScanTempFiles(h, root, isTempFile);
    var tasks := Schedule(found, h.clock + ttl);
    h' := h.(pending := h.pending + tasks);
    assert h'.pending[..|h.pending|] == h.pending;
    forall f | UnreadableBelow(h, root) == {} && f in FilesBelow(h, root) && isTempFile(f)
      ensures exists i | |h.pending| <= i < |h'.pending| :: h'.pending[i].path == f
    {
      var k :| 0 <= k < |found| && found[k] == f;
      assert h'.pending[|h.pending| + k].path == f;
    }
  }

  /** NewAdapter: read root and TTL, make the root directory, then run the
      startup cleanup. */
  method NewAdapter(conf: Configuration, h: Host, isTempFile: string -> bool)
    returns (h': Host, r: Result<Adapter, Error>)
    ensures RootKey !in conf.strings ==> h' == h && r == Err(MissingConfig(RootKey))
    ensures RootKey in conf.strings && TtlKey !in conf.durations ==>
              h' == h && r == Err(MissingConfig(TtlKey))
    ensures r.Err? ==> h'.files == h.files && h'.pending == h.pending
    ensures r.Err? ==> h' == h.(dirs := h'.dirs)
    ensures RootKey in conf.strings && TtlKey in conf.durations ==>
              var mk := MkdirAll(h, conf.strings[RootKey]);
              && (r.Ok? <==> mk.1.None?)
              && h'.dirs == mk.0.dirs
              && (r.Err? ==> r.error == Os(mk.1.value))
    ensures r.Ok? ==> r.value == Adapter(conf.strings[RootKey], conf.durations[TtlKey])
    ensures r.Ok? ==> h'.files == h.files && h'.clock == h.clock && h'.faults == h.faults
    ensures r.Ok? ==> |h.pending| <= |h'.pending| && h'.pending[..|h.pending|] == h.pending
    ensures r.Ok? ==> forall i | |h.pending| <= i < |h'.pending| ::
              && h'.pending[i].deadline == h.clock + r.value.ttl
              && h'.pending[i].path in FilesBelow(h', r.value.root)
              && isTempFile(h'.pending[i].path)
    ensures r.Ok? ==> forall i, j | |h.pending| <= i < j < |h'.pending| ::
              h'.pending[i].path != h'.pending[j].path
    ensures r.Ok? && UnreadableBelow(h', r.value.root) == {} ==>
              forall f | f in FilesBelow(h', r.value.root) && isTempFile(f) ::
                exists i | |h.pending| <= i < |h'.pending| :: h'.pending[i].path == f
    ensures WellFormed(h) ==> WellFormed(h')
  {
    if RootKey !in conf.strings {
      return h, Err(MissingConfig(RootKey));
    }
    var root := conf.strings[RootKey];
    if TtlKey !in conf.durations {
      return h, Err(MissingConfig(TtlKey));
    }
    var ttl := conf.durations[TtlKey];
    var mk := MkdirAll(h, root);
    if WellFormed(h) {
      MkdirAllKeepsWellFormed(h, root);
    }
    if mk.1.Some? {
      return mk.0, Err(Os(mk.1.value));
    }
    h' := Cleanup(mk.0, root, ttl, isTempFile);
    WalkIgnoresTasks(mk.0, h', root);
    r := Ok(Adapter(root, ttl));
  }

  // ------------------------------------------------------------- listing

  /** The full names of the files a walk of any of `ms` visits. */
  ghost function WalkedBy(h: Host, ms: set<string>): set<string> {
    set m, f | m in ms && f in Walk(h, m) :: f
  }

  /** The full names GetFilesList reports for `prefix`. */
  ghost function Listed(h: Host, a: Adapter, prefix: string): set<string> {
    WalkedBy(h, Glob(h, a.root + prefix))
  }

  /** Everything a match's walk visits is a stored file whose name starts
      with the glob's literal part. */
  lemma WalkOfMatch(h: Host, literal: string, m: string, f: string)
    requires m in Glob(h, literal) && f in Walk(h, m)
    ensures f in h.files && StartsWith(f, literal)
  {
    if m in h.dirs {
      assert Inside(m, f);
      assert f[..|literal|] == m[..|literal|];
    }
  }

  /** In a well-formed tree a match is either the walked file itself or one
      of its ancestor directories. */
  lemma MatchIsAncestor(h: Host, literal: string, m: string, f: string)
    requires WellFormed(h)
    requires m in Glob(h, literal) && f in Walk(h, m)
    ensures m == f || (|m| < |f| && f[..|m|] == m && f[|m|] == '/')
  {
    if m in h.dirs {
      assert Inside(m, f);
    }
  }

  /** In a well-formed tree two different matches never walk into the same
      file: a match is a single name element after the literal part. */
  lemma WalksDisjoint(h: Host, literal: string, m1: string, m2: string, f: string)
    requires WellFormed(h)
    requires m1 in Glob(h, literal) && m2 in Glob(h, literal) && m1 != m2
    requires f in Walk(h, m1)
    ensures f !in Walk(h, m2)
  {
    if f in Walk(h, m2) {
      MatchIsAncestor(h, literal, m1, f);
      MatchIsAncestor(h, literal, m2, f);
    }
  }

  /** No two entries name the same file. */
  predicate DistinctPaths(files: seq<FileMetadata>) {
    Distinct(PathsOf(files))
  }

  /** An entry whose path no earlier entry has keeps a listing free of
      repeats. */
  lemma AppendKeepsDistinct(files: seq<FileMetadata>, e: FileMetadata)
    requires DistinctPaths(files)
    requires forall i | 0 <= i < |files| :: files[i].path != e.path
    ensures DistinctPaths(files + [e])
  {
    var ps := PathsOf(files + [e]);
    assert forall i | 0 <= i < |files| :: ps[i] == PathsOf(files)[i];
  }

  /** The relative paths of a listing, in order. */
  function PathsOf(files: seq<FileMetadata>): (r: seq<string>)
    ensures |r| == |files| && forall i | 0 <= i < |files| :: r[i] == files[i].path
  {
    if files == [] then [] else [files[0].path] + PathsOf(files[1..])
  }

  /** Every entry of `files` stands for a stored file among `done`, with
      that file's modification time. */
  ghost predicate Reports(a: Adapter, h: Host, files: seq<FileMetadata>, done: set<string>) {
    forall i | 0 <= i < |files| ::
      && a.root + files[i].path in done
      && a.root + files[i].path in h.files
      && files[i].lastModified == h.files[a.root + files[i].path].mtime
  }

  /** Every name of `done` has an entry in `files`. */
  ghost predicate Covers(a: Adapter, files: seq<FileMetadata>, done: set<string>) {
    forall f | f in done :: exists i | 0 <= i < |files| :: a.root + files[i].path == f
  }

  /** The walk of one match already done can share no file with the
      walk of another. */
  lemma WalkAvoidsOthers(h: Host, literal: string, m: string, ms: set<string>)
    requires WellFormed(h)
    requires m in Glob(h, literal) && ms <= Glob(h, literal) && m !in ms
    ensures WalkedBy(h, ms) !! Walk(h, m)
  {
    forall f | f in WalkedBy(h, ms) ensures f !in Walk(h, m) {
      var m' :| m' in ms && f in Walk(h, m');
      WalksDisjoint(h, literal, m', m, f);
    }
  }

  /** One step of the walk callback: append the entry of the visited file
      `f`, named relative to the root. */
  method AppendFile(a: Adapter, h: Host, f: string, files: seq<FileMetadata>, ghost seen: set<string>)
    returns (files': seq<FileMetadata>)
    requires f in h.files && StartsWith(f, a.root) && f !in seen
    requires Reports(a, h, files, seen) && Covers(a, files, seen) && DistinctPaths(files)
    ensures files' == files + [FileMetadata(f[|a.root|..], h.files[f].mtime)]
    ensures Reports(a, h, files', seen + {f}) && Covers(a, files', seen + {f})
    ensures DistinctPaths(files')
  {
    var entry := FileMetadata(f[|a.root|..], h.files[f].mtime);
    assert a.root + entry.path == f;
    files' := files + [entry];
    assert files'[|files|] == entry;
    forall g | g in seen + {f} ensures exists i | 0 <= i < |files'| :: a.root + files'[i].path == g {
      if g != f {
        var i :| 0 <= i < |files| && a.root + files[i].path == g;
        assert files'[i] == files[i];
      }
    }
    forall i | 0 <= i < |files| ensures files[i].path != entry.path {
      assert a.root + files[i].path in seen;
    }
    AppendKeepsDistinct(files, entry);
  }

  /** Two listings, of `done` and of `walk`, one after the other list
      `done + walk`; with `disjoint` no path repeats. */
  lemma JoinListings(a: Adapter, h: Host, files: seq<FileMetadata>, added: seq<FileMetadata>,
                     done: set<string>, walk: set<string>, disjoint: bool)
    requires Reports(a, h, files, done) && Covers(a, files, done)
    requires Reports(a, h, added, walk) && Covers(a, added, walk)
    requires disjoint ==> DistinctPaths(files) && DistinctPaths(added) && done !! walk
    ensures Reports(a, h, files + added, done + walk) && Covers(a, files + added, done + walk)
    ensures disjoint ==> DistinctPaths(files + added)
  {
    var all := files + added;
    forall i | 0 <= i < |all|
      ensures && a.root + all[i].path in done + walk
              && a.root + all[i].path in h.files
              && all[i].lastModified == h.files[a.root + all[i].path].mtime
    {
      if i >= |files| {
        assert all[i] == added[i - |files|];
      }
    }
    forall g | g in done + walk ensures exists i | 0 <= i < |all| :: a.root + all[i].path == g {
      if g in done {
        var i :| 0 <= i < |files| && a.root + files[i].path == g;
        assert all[i] == files[i];
      } else {
        var k :| 0 <= k < |added| && a.root + added[k].path == g;
        assert all[|files| + k] == added[k];
      }
    }
    if disjoint {
      JoinKeepsDistinct(a, files, added, done, walk);
    }
  }

  /** Listings of disjoint name sets, each without repeats, have none
      between them either. */
  lemma JoinKeepsDistinct(a: Adapter, files: seq<FileMetadata>, added: seq<FileMetadata>,
                          done: set<string>, walk: set<string>)
    requires DistinctPaths(files) && DistinctPaths(added) && done !! walk
    requires forall i | 0 <= i < |files| :: a.root + files[i].path in done
    requires forall k | 0 <= k < |added| :: a.root + added[k].path in walk
    ensures DistinctPaths(files + added)
  {
    var all := files + added;
    var ps := PathsOf(all);
    forall i, j | 0 <= i < j < |ps| ensures ps[i] != ps[j] {
      if j < |files| {
        assert all[i] == files[i] && all[j] == files[j];
        assert PathsOf(files)[i] != PathsOf(files)[j];
      } else if |files| <= i {
        assert all[i] == added[i - |files|] && all[j] == added[j - |files|];
        assert PathsOf(added)[i - |files|] != PathsOf(added)[j - |files|];
      } else {
        assert all[i] == files[i] && all[j] == added[j - |files|];
        assert a.root + all[i].path in done && a.root + all[j].path in walk;
      }
    }
  }

  /** The entries the walk callback makes for the files of one walk, one
      per visited file, in the order the walk picks. */
  method ListWalk(a: Adapter, h: Host, walk: set<string>) returns (added: seq<FileMetadata>)
    requires forall f | f in walk :: f in h.files && StartsWith(f, a.root)
    ensures |added| == |walk| && DistinctPaths(added)
    ensures Reports(a, h, added, walk) && Covers(a, added, walk)
  {
    var walked := walk;
    added := [];
    ghost var seen: set<string> := {};
    while walked != {}
      invariant walked <= walk && seen == walk - walked
      invariant Reports(a, h, added, seen) && Covers(a, added, seen) && DistinctPaths(added)
      decreases walked
    {
      var f :| f in walked;
      added := AppendFile(a, h, f, added, seen);
      seen := seen + {f};
      walked := walked - {f};
    }
    assert seen == walk;
    ListingSize(a, added, walk);
  }

  /** The full names of the entries of a listing, in order. */
  function NamesOf(a: Adapter, files: seq<FileMetadata>): (r: seq<string>)
    ensures |r| == |files| && forall i | 0 <= i < |files| :: r[i] == a.root + files[i].path
  {
    if files == [] then [] else [a.root + files[0].path] + NamesOf(a, files[1..])
  }

  /** A repeat-free listing whose entries name exactly the files of `walk`
      has one entry per file. */
  lemma ListingSize(a: Adapter, added: seq<FileMetadata>, walk: set<string>)
    requires DistinctPaths(added)
    requires forall i | 0 <= i < |added| :: a.root + added[i].path in walk
    requires Covers(a, added, walk)
    ensures |added| == |walk|
  {
    var names := NamesOf(a, added);
    forall i, j | 0 <= i < j < |names| ensures names[i] != names[j] {
      assert PathsOf(added)[i] != PathsOf(added)[j];
      assert names[i][|a.root|..] == added[i].path;
      assert names[j][|a.root|..] == added[j].path;
    }
    forall x | x in walk ensures x in names {
      var i :| 0 <= i < |added| && a.root + added[i].path == x;
      assert names[i] == x;
    }
    DistinctSize(names, walk);
  }

  /** The callback of the walk of one match: append one entry per visited
      file, after the entries already there. With `disjoint`, none of the
      visited files has been reported before. */
  method AppendWalk(a: Adapter, h: Host, walk: set<string>,
                    files: seq<FileMetadata>, ghost done: set<string>, ghost disjoint: bool)
    returns (files': seq<FileMetadata>)
    requires forall f | f in walk :: f in h.files && StartsWith(f, a.root)
    requires Reports(a, h, files, done) && Covers(a, files, done)
    requires disjoint ==> DistinctPaths(files) && done !! walk
    ensures |files'| == |files| + |walk| && files'[..|files|] == files
    ensures Reports(a, h, files', done + walk) && Covers(a, files', done + walk)
    ensures disjoint ==> DistinctPaths(files')
  {
    var added := ListWalk(a, h, walk);
    JoinListings(a, h, files, added, done, walk, disjoint);
    files' := files + added;
    assert files'[..|files|] == files;
  }

  /** Every file the walk of a glob match reaches is stored below the
      root. */
  lemma WalkUnderRoot(a: Adapter, h: Host, prefix: string, m: string)
    requires m in Glob(h, a.root + prefix)
    ensures forall f | f in Walk(h, m) :: f in h.files && StartsWith(f, a.root)
  {
    forall f | f in Walk(h, m) ensures f in h.files && StartsWith(f, a.root) {
      WalkOfMatch(h, a.root + prefix, m, f);
    }
  }

  /** Walking one more match adds exactly that match's files. */
  lemma WalkedByStep(h: Host, ms: set<string>, m: string)
    ensures WalkedBy(h, ms + {m}) == WalkedBy(h, ms) + Walk(h, m)
  {
  }

  /** The walk of one more glob match: its files are appended to the
      listing of the files `done` that the matches walked before visit. */
  method ListMatch(a: Adapter, h: Host, prefix: string, m: string, files: seq<FileMetadata>,
                   ghost visited: set<string>, ghost done: set<string>, ghost wf: bool)
    returns (files': seq<FileMetadata>)
    requires m in Glob(h, a.root + prefix) && visited <= Glob(h, a.root + prefix) && m !in visited
    requires done == WalkedBy(h, visited)
    requires wf ==> WellFormed(h) && DistinctPaths(files)
    requires Reports(a, h, files, done) && Covers(a, files, done)
    ensures Reports(a, h, files', done + Walk(h, m)) && Covers(a, files', done + Walk(h, m))
    ensures wf ==> DistinctPaths(files')
    ensures done + Walk(h, m) == WalkedBy(h, visited + {m})
  {
    if wf {
      WalkAvoidsOthers(h, a.root + prefix, m, visited);
    }
    WalkUnderRoot(a, h, prefix, m);
    files' := AppendWalk(a, h, Walk(h, m), files, done, wf);
    WalkedByStep(h, visited, m);
  }

  /** The loop over the glob's matches, in an order the method picks. */
  method WalkMatches(a: Adapter, h: Host, prefix: string, all: set<string>, ghost wf: bool)
    returns (files: seq<FileMetadata>)
    requires all <= Glob(h, a.root + prefix)
    requires wf ==> WellFormed(h)
    ensures Reports(a, h, files, WalkedBy(h, all)) && Covers(a, files, WalkedBy(h, all))
    ensures wf ==> DistinctPaths(files)
    ensures all == {} ==> files == []
  {
    var matches := all;
    files := [];
    ghost var visited: set<string> := {};
    ghost var done: set<string> := {};
    while matches != {}
      invariant matches <= all && visited == all - matches
      invariant done == WalkedBy(h, visited)
      invariant Reports(a, h, files, done) && Covers(a, files, done)
      invariant wf ==> DistinctPaths(files)
      invariant matches == all ==> files == []
      decreases matches
    {
      var m :| m in matches;
      files := ListMatch(a, h, prefix, m, files, visited, done, wf);
      done := done + Walk(h, m);
      visited := visited + {m};
      matches := matches - {m};
    }
    assert visited == all;
  }

  /** Adapter.GetFilesList: glob `root + prefix + "*"`, walk every match,
      keep the regular files and strip `root` from their names. A rejected
      pattern is the only error; a walk that cannot read a directory just
      skips its contents. The order of the entries is left open. */
  method GetFilesList(a: Adapter, h: Host, prefix: string, badPattern: string -> bool)
    returns (files: seq<FileMetadata>, err: Option<Error>)
    ensures badPattern(a.root + prefix + "*") ==> files == [] && err == Some(BadPattern)
    ensures !badPattern(a.root + prefix + "*") ==> err == None
    ensures forall i | 0 <= i < |files| ::
              && a.root + files[i].path in h.files
              && a.root + files[i].path in Listed(h, a, prefix)
              && files[i].lastModified == h.files[a.root + files[i].path].mtime
    ensures !badPattern(a.root + prefix + "*") ==>
              forall f | f in Listed(h, a, prefix) ::
                exists i | 0 <= i < |files| :: a.root + files[i].path == f
    ensures WellFormed(h) ==> DistinctPaths(files)
    ensures Glob(h, a.root + prefix) == {} ==> files == []
  {
    if badPattern(a.root + prefix + "*") {
      return [], Some(BadPattern);
    }
    err := None;
    var all := Glob(h, a.root + prefix);
    files := WalkMatches(a, h, prefix, all, WellFormed(h));
    ListingMeaning(a, h, prefix, files);
  }

  /** A listing that reports and covers the listed names states the
      contract of GetFilesList. */
  lemma ListingMeaning(a: Adapter, h: Host, prefix: string, files: seq<FileMetadata>)
    requires Reports(a, h, files, Listed(h, a, prefix)) && Covers(a, files, Listed(h, a, prefix))
    ensures forall i | 0 <= i < |files| ::
              && a.root + files[i].path in h.files
              && a.root + files[i].path in Listed(h, a, prefix)
              && files[i].lastModified == h.files[a.root + files[i].path].mtime
    ensures forall f | f in Listed(h, a, prefix) ::
              exists i | 0 <= i < |files| :: a.root + files[i].path == f
  {
  }
}

=== FILE: filesystem_properties.dfy ===
/** What the file store promises across several calls: a put is read back,
    a temporary file expires, repeated expiry is harmless, listing and the
    startup scan see every file of a readable tree, and the operations keep
    the host a tree the OS could hold. */
module FileSystemProperties {
  import opened Base
  import opened Paths
  import opened Disk
  import opened FileSystem

  // --------------------------------------------------------- put and get

  /** A successful put is read back unchanged. */
  lemma PutThenGet(a: Adapter, h: Host, path: string, content: seq<byte>, isTemp: bool)
    requires PutFile(a, h, path, content, isTemp).1.None?
    ensures GetFile(a, PutFile(a, h, path, content, isTemp).0, path) == Fetched(content, None)
  {
    var f := a.root + path;
    var h' := PutFile(a, h, path, content, isTemp).0;
    var h1 := MkdirAll(h, a.root + Dir(path)).0;
    assert h'.dirs == h1.dirs && h'.files == h1.files[f := Blob(content, h.clock)];
    assert !HasFileAncestor(h1, f);
  }

  /** In a well-formed tree a put leaves every other readable file as it
      was, whether it succeeds or not. */
  lemma PutKeepsOtherFiles(a: Adapter, h: Host, path: string, content: seq<byte>, isTemp: bool, q: string)
    requires WellFormed(h)
    requires Present(h, a.root + q) && a.root + q != a.root + path
    ensures GetFile(a, PutFile(a, h, path, content, isTemp).0, q) == GetFile(a, h, q)
  {
    var f := a.root + path;
    var g := a.root + q;
    var r := PutFile(a, h, path, content, isTemp);
    var mk := MkdirAll(h, a.root + Dir(path));
    assert g !in mk.0.dirs;
    if r.1.None? {
      assert f !in h.dirs;
      forall j | 0 < j < |g| && g[j] == '/' ensures g[..j] !in r.0.files {
        assert g[..j] in h.dirs;
      }
    }
    assert Present(r.0, g) && r.0.files[g] == h.files[g];
  }

  // ------------------------------------------------------------ expiry

  /** A temporary file put now and left alone for at least one TTL is gone
      once its deletion task runs: reading it then reports NotFound. */
  lemma TempFileExpires(a: Adapter, h: Host, path: string, content: seq<byte>, dt: nat)
    requires PutFile(a, h, path, content, true).1.None?
    requires dt >= a.ttl
    ensures var h1 := Advance(PutFile(a, h, path, content, true).0, dt);
            && |h1.pending| == |h.pending| + 1
            && h1.pending[|h.pending|] == Deletion(a.root + path, h.clock + a.ttl)
            && h1.pending[|h.pending|].deadline <= h1.clock
            && var r := GetFile(a, Fire(h1, |h.pending|), path);
               r.err.Some? && r.err.value.NotFound?
  {
    var h0 := PutFile(a, h, path, content, true).0;
    var h1 := Advance(h0, dt);
    PutThenGet(a, h, path, content, true);
    assert Present(h1, a.root + path);
  }

  /** Each temporary put starts its own task and none is cancelled, so a
      file rewritten before its first task runs is removed by that task:
      the new content lives less than one TTL. */
  lemma RewriteExpiresWithFirstTask(a: Adapter, h: Host, path: string,
                                    first: seq<byte>, second: seq<byte>, dt1: nat, dt2: nat)
    requires PutFile(a, h, path, first, true).1.None?
    requires var h1 := Advance(PutFile(a, h, path, first, true).0, dt1);
             PutFile(a, h1, path, second, true).1.None?
    requires dt1 + dt2 >= a.ttl
    ensures var h1 := Advance(PutFile(a, h, path, first, true).0, dt1);
            var h2 := Advance(PutFile(a, h1, path, second, true).0, dt2);
            && |h2.pending| == |h.pending| + 2
            && h2.pending[|h.pending|] == Deletion(a.root + path, h.clock + a.ttl)
            && h2.pending[|h.pending| + 1] == Deletion(a.root + path, h1.clock + a.ttl)
            && h2.pending[|h.pending|].deadline <= h2.clock
            && var r := GetFile(a, Fire(h2, |h.pending|), path);
               r.err.Some? && r.err.value.NotFound?
  {
    var h1 := Advance(PutFile(a, h, path, first, true).0, dt1);
    var h2 := Advance(PutFile(a, h1, path, second, true).0, dt2);
    PutThenGet(a, h1, path, second, true);
    assert Present(h2, a.root + path);
  }

  /** Two pending tasks for the same path (the file was put as temporary
      twice): once the first has run, the second changes no file and no
      directory. */
  lemma RepeatedExpiryIsHarmless(h: Host, i: nat, j: nat)
    requires WellFormed(h)
    requires i < |h.pending| && j < |h.pending| && i != j
    requires h.pending[i].path == h.pending[j].path
    requires h.pending[i].deadline <= h.clock && h.pending[j].deadline <= h.clock
    ensures var h1 := Fire(h, i);
            var j' := if j < i then j else j - 1;
            && j' < |h1.pending| && h1.pending[j'] == h.pending[j]
            && Fire(h1, j').files == h1.files && Fire(h1, j').dirs == h1.dirs
  {
    var p := h.pending[i].path;
    var h1 := Fire(h, i);
    var j' := if j < i then j else j - 1;
    assert h1.pending[j'] == h.pending[j];
    if !HasFileAncestor(h, p) && p !in h.faults && (p in h.files || (p in h.dirs && !HasEntries(h, p))) {
      assert p !in h1.files && p !in h1.dirs;
    } else {
      assert h1.files == h.files && h1.dirs == h.dirs;
    }
  }

  // --------------------------------------------------- well-formedness

  /** A put of a plain absolute name keeps the tree well-formed. */
  lemma PutFileKeepsWellFormed(a: Adapter, h: Host, path: string, content: seq<byte>, isTemp: bool)
    requires WellFormed(h)
    requires Plain(a.root + path) && (a.root + path)[0] == '/'
    ensures WellFormed(PutFile(a, h, path, content, isTemp).0)
  {
    var f := a.root + path;
    var mk := MkdirAll(h, a.root + Dir(path));
    MkdirAllKeepsWellFormed(h, a.root + Dir(path));
    var r := PutFile(a, h, path, content, isTemp);
    if r.1.None? {
      assert r.0.dirs == mk.0.dirs && IsDirectory(mk.0, Dir(f)) && f !in mk.0.dirs;
      forall g, j | g in r.0.files && 0 < j < |g| && g[j] == '/' ensures g[..j] in r.0.dirs {
        if g == f {
          SlashPrefixOfParent(f, j);
        }
      }
    }
  }

  /** A deletion task keeps the tree well-formed: it removes a file or an
      empty directory, never a directory something still lives in. */
  lemma FireKeepsWellFormed(h: Host, i: nat)
    requires WellFormed(h)
    requires i < |h.pending| && h.pending[i].deadline <= h.clock
    ensures WellFormed(Fire(h, i))
  {
    var p := h.pending[i].path;
    var r := Fire(h, i);
    if p in h.dirs && p !in r.dirs {
      assert !HasEntries(h, p);
      forall f, j | f in r.files && 0 < j < |f| && f[j] == '/' ensures f[..j] in r.dirs {
        if f[..j] == p {
          assert Inside(p, f);
        }
      }
      forall x, j | x in r.dirs && ComponentEnd(x, j) && j < |x| ensures x[..j] in r.dirs {
        if x[..j] == p {
          assert Inside(p, x);
        }
      }
    }
  }

  // ---------------------------------------------------- walks and globs

  /** The directory a glob for `literal` reads is a directory as soon as
      some stored file starts with `literal`. */
  lemma GlobDirectoryExists(h: Host, literal: string, f: string)
    requires WellFormed(h)
    requires f in h.files && StartsWith(f, literal)
    ensures IsDirectory(h, Dir(literal + "*"))
  {
    var pattern := literal + "*";
    var i := LastSlash(pattern);
    if i >= 0 {
      assert i < |literal| && f[i] == '/' && pattern[..i] == f[..i];
      var t := TrimTrailingSlashes(f[..i]);
      if t != "" {
        assert f[i - 1] != '/';
        assert t == f[..i];
      }
    }
  }

  /** The match of the glob through which a walk reaches the stored file
      `f`: `f` itself, or its ancestor directory that ends the first name
      element after the literal part. */
  lemma ListedThroughMatch(h: Host, literal: string, f: string) returns (m: string)
    requires WellFormed(h) && Readable(h)
    requires literal != [] && Dir(literal + "*") !in h.faults
    requires f in h.files && StartsWith(f, literal)
    ensures m in Glob(h, literal) && f in Walk(h, m)
  {
    GlobDirectoryExists(h, literal, f);
    var rest := f[|literal|..];
    var k := FirstSlash(rest);
    m := f[..|literal| + k];
    assert m[|literal|..] == rest[..k];
    assert StartsWith(m, literal);
    if k == |rest| {
      assert m == f;
    } else {
      var n := |literal| + k;
      assert f[n] == '/';
      assert m in h.dirs;
      assert Inside(m, f);
      forall j | |TrimTrailingSlashes(m)| <= j < |f| && 0 < j && f[j] == '/' ensures f[..j] !in h.faults {
        assert f[..j] in h.dirs;
      }
    }
  }

  /** In a readable well-formed tree GetFilesList reports exactly the
      stored files whose full name starts with root + prefix. */
  lemma ListingIsPrefixMatch(a: Adapter, h: Host, prefix: string)
    requires WellFormed(h) && Readable(h)
    requires a.root + prefix != [] && Dir(a.root + prefix + "*") !in h.faults
    ensures Listed(h, a, prefix) == set f | f in h.files && StartsWith(f, a.root + prefix)
  {
    var literal := a.root + prefix;
    forall f | f in Listed(h, a, prefix) ensures f in h.files && StartsWith(f, literal) {
      var m :| m in Glob(h, literal) && f in Walk(h, m);
      WalkOfMatch(h, literal, m, f);
    }
    forall f | f in h.files && StartsWith(f, literal) ensures f in Listed(h, a, prefix) {
      var m := ListedThroughMatch(h, literal, f);
    }
  }
}

=== FILE: paths.dfy ===
/** Path strings as the store handles them.

    The store builds every on-disk name by plain concatenation of its root and
    a caller-supplied path; nothing resolves ".", ".." or repeated separators,
    so in this model every distinct string names a distinct entry. The
    separator is '/'. */
module Paths {

  predicate StartsWith(s: string, prefix: string) {
    |prefix| <= |s| && s[..|prefix|] == prefix
  }

  predicate NoSlash(s: string) {
    forall i | 0 <= i < |s| :: s[i] != '/'
  }

  /** strings.TrimPrefix: drop one leading occurrence of `prefix`, if any. */
  function TrimPrefix(s: string, prefix: string): (r: string)
    ensures StartsWith(s, prefix) ==> prefix + r == s
    ensures !StartsWith(s, prefix) ==> r == s
  {
    if StartsWith(s, prefix) then s[|prefix|..] else s
  }

  /** TrimPrefix undoes prepending the prefix, whatever follows it. */
  lemma TrimPrefixAfterPrepend(prefix: string, s: string)
    ensures TrimPrefix(prefix + s, prefix) == s
  {
    assert (prefix + s)[..|prefix|] == prefix;
  }

  /** Index of the last '/' of `s`, or -1 when there is none. */
  function LastSlash(s: string): (r: int)
    ensures -1 <= r < |s|
    ensures r >= 0 ==> s[r] == '/'
    ensures forall k | r < k < |s| :: s[k] != '/'
  {
    if |s| == 0 then -1
    else if s[|s| - 1] == '/' then |s| - 1
    else LastSlash(s[..|s| - 1])
  }

  /** Index of the first '/' of `s`, or |s| when there is none. */
  function FirstSlash(s: string): (r: nat)
    ensures r <= |s|
    ensures r < |s| ==> s[r] == '/'
    ensures NoSlash(s[..r])
  {
    if |s| == 0 || s[0] == '/' then 0
    else
      var k := FirstSlash(s[1..]);
      assert s[..k + 1] == [s[0]] + s[1..][..k];
      k + 1
  }

  /** `s` without its trailing separators. */
  function TrimTrailingSlashes(s: string): (r: string)
    ensures StartsWith(s, r)
    ensures r == [] || r[|r| - 1] != '/'
    ensures forall i | |r| <= i < |s| :: s[i] == '/'
  {
    if |s| > 0 && s[|s| - 1] == '/' then TrimTrailingSlashes(s[..|s| - 1]) else s
  }

  /** filepath.Dir: everything before the final element, without trailing
      separators; "." for a bare name and "/" for a name directly under "/".
      The lexical cleaning of "." and ".." elements and of inner repeated
      separators is not modelled. */
  function Dir(p: string): string
  {
    var i := LastSlash(p);
    if i < 0 then "."
    else
      var t := TrimTrailingSlashes(p[..i]);
      if t == "" then "/" else t
  }

  /** `j` ends one element of `p`: a '/' (or the end) follows, and the
      element is not empty. */
  predicate ComponentEnd(p: string, j: int) {
    0 < j <= |p| && (j == |p| || p[j] == '/') && p[j - 1] != '/'
  }

  /** The directories that must exist for `p` to exist as a directory:
      `p` itself and every ancestor, each named without trailing separator. */
  function DirChain(p: string): set<string> {
    set j | 0 < j <= |p| && ComponentEnd(p, j) :: p[..j]
  }

  /** A well-behaved stored name: not empty, no trailing separator and no
      empty element. */
  predicate Plain(f: string) {
    && f != []
    && f[|f| - 1] != '/'
    && forall i | 0 < i < |f| :: !(f[i - 1] == '/' && f[i] == '/')
  }

  /** `f` lies somewhere below the directory named `d`: `d` followed by a
      separator, or `d` itself when it already ends with one. */
  predicate Inside(d: string, f: string) {
    && |d| < |f|
    && f[..|d|] == d
    && (f[|d|] == '/' || (d != [] && d[|d| - 1] == '/'))
  }

  /** Every directory prefix of an absolute plain name is its parent
      directory or one of the parent's own directory prefixes. */
  lemma SlashPrefixOfParent(f: string, j: int)
    requires Plain(f) && f[0] == '/'
    requires 0 < j < |f| && f[j] == '/'
    ensures Dir(f) != "." && Dir(f) != "/"
    ensures f[..j] == Dir(f) || (ComponentEnd(Dir(f), j) && j < |Dir(f)| && Dir(f)[..j] == f[..j])
  {
    var i := LastSlash(f);
    assert j <= i;
    assert f[i - 1] != '/';
    var t := TrimTrailingSlashes(f[..i]);
    assert |t| == i;
    assert t == f[..i];
    assert Dir(f) == t;
  }
}

=== FILE: rest.dfy ===
/** The decision logic of the REST handlers (package rest): which path the
    service sees, which status and body a service result becomes, and the
    ListBucketResult envelope of a listing. Reading the request body,
    XML encoding and writing the response are outside the model; a body
    read is given as its outcome. */
module Rest {
  import opened Base
  import opened Paths
  import opened Disk
  import FileSystem
  import SharedFiles
  import FileSystemProperties

  const ApiPrefix: string := "/api/"

  const StatusOK: int := 200
  const StatusNotFound: int := 404
  const StatusInternalServerError: int := 500

  /** The error-body key every 500 response is built from. */
  const InternalErrorKey: string := "internal-error"

  /** One entry of the listing envelope: the file's relative path and its
      modification time (rendered as RFC 3339 text by the handler). */
  datatype Contents = Contents(key: string, lastModified: nat)

  /** The ListBucketResult envelope. */
  datatype FilesList = FilesList(keyCount: int, contents: seq<Contents>)

  /** A response body: raw bytes, the error body named by its key, or a
      listing envelope before XML encoding. */
  datatype Body =
    | Bytes(data: seq<byte>)
    | ErrorBody(key: string)
    | Listing(list: FilesList)

  datatype Response = Response(status: int, body: Body)

  const InternalError: Response := Response(StatusInternalServerError, ErrorBody(InternalErrorKey))

  /** The store path of a request: the URL path with one leading "/api/"
      removed, when there is one. */
  function RequestPath(urlPath: string): (r: string)
    ensures StartsWith(urlPath, ApiPrefix) ==> ApiPrefix + r == urlPath
    ensures !StartsWith(urlPath, ApiPrefix) ==> r == urlPath
  {
    TrimPrefix(urlPath, ApiPrefix)
  }

  /** The path a client puts after "/api/" is the path the service sees. */
  lemma RequestPathOfApiUrl(path: string)
    ensures RequestPath(ApiPrefix + path) == path
  {
    TrimPrefixAfterPrepend(ApiPrefix, path);
  }

  /** The PutFile handler. `body` is the outcome of reading the request
      body; when that fails the service is not called. Success answers 200
      with no body, any service error 500. */
  function HandlePutFile(svc: SharedFiles.Service, h: Host, urlPath: string,
                         body: Option<seq<byte>>, isTempFile: string -> bool)
    : (r: (Host, Response))
    ensures body.None? ==> r == (h, InternalError)
    ensures body.Some? ==>
              var put := SharedFiles.PutFile(svc, h, RequestPath(urlPath), body.value, isTempFile);
              && r.0 == put.0
              && (put.1.None? ==> r.1 == Response(StatusOK, Bytes([])))
              && (put.1.Some? ==> r.1 == InternalError)
    ensures r.1.status == StatusOK ==>
              r.0.files == h.files[svc.store.root + RequestPath(urlPath) := Blob(body.value, h.clock)]
    ensures r.1.status != StatusOK ==> r.0.files == h.files
  {
    match body
    case None => (h, InternalError)
    case Some(content) =>
      var (h', err) := SharedFiles.PutFile(svc, h, RequestPath(urlPath), content, isTempFile);
      if err.Some? then (h', InternalError) else (h', Response(StatusOK, Bytes([])))
  }

  /** The GetFile handler: 200 with exactly the stored bytes, 404 with an
      empty body for an error of the NotFound class, 500 otherwise. */
  function HandleGetFile(svc: SharedFiles.Service, h: Host, urlPath: string): (r: Response)
    ensures var p := svc.store.root + RequestPath(urlPath);
            && (r.status == StatusOK <==> FileSystem.Present(h, p))
            && (r.status == StatusOK ==> r.body == Bytes(h.files[p].content))
            && (r.status == StatusNotFound <==> FileSystem.Missing(h, p))
            && (r.status == StatusNotFound ==> r.body == Bytes([]))
            && (r.status != StatusOK && r.status != StatusNotFound ==> r == InternalError)
  {
    var fetched := SharedFiles.GetFile(svc, h, RequestPath(urlPath));
    if fetched.err.Some? then
      if fetched.err.value.NotFound? then Response(StatusNotFound, Bytes([]))
      else InternalError
    else Response(StatusOK, Bytes(fetched.data))
  }

  /** A URL whose store name resolves to a directory (a directory path
      with a trailing "/") is not a missing file: the read fails with
      EISDIR, which is not of the NotFound class, so the answer is 500. */
  lemma DirectoryUrlIsServerError(svc: SharedFiles.Service, h: Host, urlPath: string)
    requires var p := svc.store.root + RequestPath(urlPath);
             NamesDirectory(h, p) && p !in h.faults
    ensures HandleGetFile(svc, h, urlPath) == InternalError
  {
  }

  /** "/api/sub/" under the root "/data/" names the directory "/data/sub". */
  lemma SubdirectoryUrlIsServerError()
    ensures var svc := SharedFiles.Service(FileSystem.Adapter("/data/", 10));
            HandleGetFile(svc, Host(map[], {"/data", "/data/sub"}, map[], 0, []), "/api/sub/")
            == InternalError
  {
    RequestPathOfApiUrl("sub/");
    assert ApiPrefix + "sub/" == "/api/sub/";
    assert "/data/" + RequestPath("/api/sub/") == "/data/sub/";
    assert TrimTrailingSlashes("/data/sub/") == "/data/sub";
    DirectoryUrlIsServerError(SharedFiles.Service(FileSystem.Adapter("/data/", 10)),
                              Host(map[], {"/data", "/data/sub"}, map[], 0, []), "/api/sub/");
  }

  /** The envelope of a listing: one entry per file, in the same order. */
  function Envelope(files: seq<FileSystem.FileMetadata>): (list: FilesList)
    ensures list.keyCount == |files| && |list.contents| == |files|
    ensures forall i | 0 <= i < |files| ::
              list.contents[i] == Contents(files[i].path, files[i].lastModified)
  {
    FilesList(|files|, seq(|files|, i requires 0 <= i < |files| =>
                                 Contents(files[i].path, files[i].lastModified)))
  }

  /** The GetFilesList handler for the query parameter `prefix`: 500 when
      the service fails, otherwise 200 with the envelope of its listing. */
  method HandleGetFilesList(svc: SharedFiles.Service, h: Host, prefix: string, badPattern: string -> bool)
    returns (r: Response)
    ensures badPattern(svc.store.root + prefix + "*") <==> r == InternalError
    ensures r.status == StatusOK <==> !badPattern(svc.store.root + prefix + "*")
    ensures r.status == StatusOK ==>
              && r.body.Listing?
              && r.body.list.keyCount == |r.body.list.contents|
              && (forall i | 0 <= i < |r.body.list.contents| ::
                    && svc.store.root + r.body.list.contents[i].key in FileSystem.Listed(h, svc.store, prefix)
                    && svc.store.root + r.body.list.contents[i].key in h.files
                    && r.body.list.contents[i].lastModified
                       == h.files[svc.store.root + r.body.list.contents[i].key].mtime)
              && (forall f | f in FileSystem.Listed(h, svc.store, prefix) ::
                    exists i | 0 <= i < |r.body.list.contents| ::
                      svc.store.root + r.body.list.contents[i].key == f)
    ensures r.status == StatusOK && WellFormed(h) ==>
              forall i, j | 0 <= i < j < |r.body.list.contents| ::
                r.body.list.contents[i].key != r.body.list.contents[j].key
  {
    var files, err := SharedFiles.GetFilesList(svc, h, prefix, badPattern);
    if err.Some? {
      return InternalError;
    }
    var list := Envelope(files);
    forall f | f in FileSystem.Listed(h, svc.store, prefix)
      ensures exists i | 0 <= i < |list.contents| :: svc.store.root + list.contents[i].key == f
    {
      var i :| 0 <= i < |files| && svc.store.root + files[i].path == f;
      assert svc.store.root + list.contents[i].key == f;
    }
    r := Response(StatusOK, Listing(list));
  }

  /** A file uploaded under "/api/" + path is downloaded from the same URL
      unchanged. */
  lemma UploadThenDownload(svc: SharedFiles.Service, h: Host, path: string,
                           content: seq<byte>, isTempFile: string -> bool)
    requires HandlePutFile(svc, h, ApiPrefix + path, Some(content), isTempFile).1.status == StatusOK
    ensures var h' := HandlePutFile(svc, h, ApiPrefix + path, Some(content), isTempFile).0;
            HandleGetFile(svc, h', ApiPrefix + path) == Response(StatusOK, Bytes(content))
  {
    RequestPathOfApiUrl(path);
    FileSystemProperties.PutThenGet(svc.store, h, path, content, isTempFile(path));
  }

  /** An upload of a temporary path answers 404 once its deletion task has
      run, one TTL or more later. */
  lemma TempUploadExpires(svc: SharedFiles.Service, h: Host, path: string,
                          content: seq<byte>, isTempFile: string -> bool, dt: nat)
    requires HandlePutFile(svc, h, ApiPrefix + path, Some(content), isTempFile).1.status == StatusOK
    requires isTempFile(path) && dt >= svc.store.ttl
    ensures var h1 := Advance(HandlePutFile(svc, h, ApiPrefix + path, Some(content), isTempFile).0, dt);
            && |h.pending| < |h1.pending| && h1.pending[|h.pending|].deadline <= h1.clock
            && HandleGetFile(svc, FileSystem.Fire(h1, |h.pending|), ApiPrefix + path)
               == Response(StatusNotFound, Bytes([]))
  {
    RequestPathOfApiUrl(path);
    FileSystemProperties.TempFileExpires(svc.store, h, path, content, dt);
  }
}

=== FILE: sharedfiles.dfy ===
/** The shared-files service (package sharedfiles): a thin layer over the
    store that hands requests through unchanged and decides, from the
    caller's relative path alone, whether a stored file is temporary. */
module SharedFiles {
  import opened Base
  import opened Paths
  import opened Disk
  import FileSystem

  /** Service: the store it forwards to. */
  datatype Service = Service(store: FileSystem.Adapter)

  /** Service.GetFile: the store's answer, NotFound class included. */
  function GetFile(s: Service, h: Host, path: string): (r: FileSystem.Fetched)
    ensures r == FileSystem.GetFile(s.store, h, path)
    ensures r.err.None? <==> FileSystem.Present(h, s.store.root + path)
    ensures r.err.None? ==> r.data == h.files[s.store.root + path].content
    ensures (r.err.Some? && r.err.value.NotFound?) <==> FileSystem.Missing(h, s.store.root + path)
  {
    FileSystem.GetFile(s.store, h, path)
  }

  /** Service.PutFile: the store's put, temporary exactly when `isTempFile`
      accepts the relative path the caller gave. The store's error comes
      back unchanged. */
  function PutFile(s: Service, h: Host, path: string, content: seq<byte>, isTempFile: string -> bool)
    : (r: (Host, Option<FileSystem.Error>))
    ensures r == FileSystem.PutFile(s.store, h, path, content, isTempFile(path))
    ensures r.1.None? ==> r.0.files == h.files[s.store.root + path := Blob(content, h.clock)]
    ensures r.1.Some? ==> r.0.files == h.files
    ensures |r.0.pending| == |h.pending| + (if r.1.None? && isTempFile(path) then 1 else 0)
    ensures r.1.None? && isTempFile(path) ==>
              r.0.pending[|h.pending|] == Deletion(s.store.root + path, h.clock + s.store.ttl)
  {
    FileSystem.PutFile(s.store, h, path, content, isTempFile(path))
  }

  /** Service.GetFilesList: the store's listing and error. */
  method GetFilesList(s: Service, h: Host, prefix: string, badPattern: string -> bool)
    returns (files: seq<FileSystem.FileMetadata>, err: Option<FileSystem.Error>)
    ensures badPattern(s.store.root + prefix + "*") ==> files == [] && err == Some(FileSystem.BadPattern)
    ensures !badPattern(s.store.root + prefix + "*") ==> err == None
    ensures forall i | 0 <= i < |files| ::
              && s.store.root + files[i].path in h.files
              && s.store.root + files[i].path in FileSystem.Listed(h, s.store, prefix)
              && files[i].lastModified == h.files[s.store.root + files[i].path].mtime
    ensures !badPattern(s.store.root + prefix + "*") ==>
              forall f | f in FileSystem.Listed(h, s.store, prefix) ::
                exists i | 0 <= i < |files| :: s.store.root + files[i].path == f
    ensures WellFormed(h) ==> FileSystem.DistinctPaths(files)
  {
    files, err := FileSystem.GetFilesList(s.store, h, prefix, badPattern);
  }
}
